=== FILE: README.md ===
# iZSM compose-and-submit, modelled in Dafny

This project models the logic of the post editor of iZSM, an iOS client for
a bulletin-board service (`iZSM/ComposeArticleController.swift`). The
UIKit shell is removed. What remains is:

- the attachment bookkeeping: two parallel lists of images and upload names,
  a counter for generated "Untitled" names, and a cap of eight attachments;
- the base name each attachment is uploaded under;
- the sequential upload loop, with its 1-based progress text;
- the body normalisation and the optional device signature;
- the routing of the four compose modes (post, reply, reply by mail,
  modify) to exactly one remote call;
- the state machine around submission: lock the screen, then run the
  success or failure handler; plus the done-button enabling rule.

Modules follow the controller's parts:

| module | file | models |
|---|---|---|
| `Wrappers` | wrappers.dfy | Swift optionals |
| `Decimal` | decimal.dfy | `"\(n)"` for non-negative integers |
| `CharClasses` | charclasses.dfy | Foundation's `whitespaces` and `newlines` sets |
| `Text` | text.dfy | `trimmingCharacters(in:)`, `components(separatedBy: .newlines)`, `joined(separator:)` |
| `ContentNormalizer` | normalizer.dfy | the body clean-up in `done(_:)` |
| `UploadName` | uploadname.dfy | base-name derivation |
| `Attachments` | attachments.dfy | the attachment lists, picker callback, delete button, strip visibility |
| `Uploads` | uploads.dfy | the upload loop |
| `Dispatch` | dispatch.dfy | `Mode`, the remote calls, mode-specific texts, key commands |
| `Composer` | composer.dfy | the controller state and the submit / success / failure transitions |

The remote services are not modelled as code. Each upload's result is an
input (`seq<UploadResult>`), and so is the article service's answer
(`RemoteResult`). Picker loads are inputs that carry an optional image and
an optional suggested name. `AppSetting` values are a `Settings` value
fixed when the controller is created. Article fields are opaque values.

Behaviour of the code worth knowing before reading the contracts:

- An upload error is displayed and then ignored. The loop goes on to the
  next attachment, and dispatch still happens.
- A suggested name is used verbatim, even when it is empty.
- Submission is guarded by board, title and body being present (non-nil),
  not by them being non-empty. A separate rule enables the done button
  exactly when the title is non-empty.
- There is no "submitting" state that rejects a second submit. `done(_:)`
  has no re-entry guard, and the command-return key triggers it whatever
  the button's state (`Composer.DoneHasNoReentryGuard`).
- Removal finds the first image equal to the tapped one. A missing image is
  a no-op, not an index error.
- Reply, reply-by-mail and modify without an article return early. They
  make no call, and the screen stays locked (`Composer.MissingArticleStaysLocked`).
- The failure handler turns the done button back on even if the title is
  empty.

## Model

| member | source | states |
|---|---|---|
| `Decimal.Show` | iZSM/ComposeArticleController.swift:436 | the interpolated counter is non-empty, all digits, with no leading zero |
| `Decimal.ParseShow` | iZSM/ComposeArticleController.swift:436 | reading the decimal text back gives the number, so the rendering is injective |
| `Text.Trim` | iZSM/ComposeArticleController.swift:266 | after trimming, neither end belongs to the character set |
| `Text.TrimSlice` | iZSM/ComposeArticleController.swift:266-268 | trimming keeps a contiguous middle slice and removes only characters of the set |
| `Text.TrimIdempotent` | iZSM/ComposeArticleController.swift:266-268 | trimming twice equals trimming once |
| `Text.FirstNewline` | iZSM/ComposeArticleController.swift:265 | the first newline position: no newline before it, and a newline at it unless it is the end |
| `Text.SplitLines` | iZSM/ComposeArticleController.swift:265 | splitting yields at least one line, and no line contains a newline character |
| `Text.JoinSplitLines` | iZSM/ComposeArticleController.swift:265-268 | split then join with "\n" gives the input with each newline character replaced by a line feed ("\r\n" leaves an empty line) |
| `Text.SplitJoinLines` | iZSM/ComposeArticleController.swift:265-268 | joining newline-free lines then splitting gives the lines back |
| `Text.Join` | iZSM/ComposeArticleController.swift:268 | joining no lines gives the empty text; otherwise the text starts with the first line (with `Text.SplitJoinLines`, the lines come back by splitting) |
| `Text.StripTrim` | iZSM/ComposeArticleController.swift:266-268 | trimming deletes only characters of the set: the visible characters are unchanged |
| `ContentNormalizer.Normalize` | iZSM/ComposeArticleController.swift:265-268 | the result has no outer whitespace or newline, no line with leading or trailing horizontal whitespace, and only "\n" line breaks |
| `ContentNormalizer.JoinClean` | iZSM/ComposeArticleController.swift:265-268 | trimmed newline-free lines joined by "\n" leave no horizontal whitespace beside any line break |
| `ContentNormalizer.SplitLinesTrimmed` | iZSM/ComposeArticleController.swift:265-266 | in a string with clean line edges, every line is already trimmed |
| `ContentNormalizer.NormalizeFixesNormalized` | iZSM/ComposeArticleController.swift:265-268 | a string of the normalised shape is left unchanged by normalisation |
| `ContentNormalizer.NormalizeIdempotent` | iZSM/ComposeArticleController.swift:265-268 | normalising twice equals normalising once |
| `ContentNormalizer.TrimJoinedLines` | iZSM/ComposeArticleController.swift:268 | for newline-free lines with no whitespace at their ends, the outer trim of their join is the join without the empty lines at the start and end |
| `ContentNormalizer.NormalizeReference` | iZSM/ComposeArticleController.swift:265-268 | the normalised body is the trimmed lines of the body, less its leading and trailing empty lines, joined with "\n" |
| `ContentNormalizer.NormalizeKeepsText` | iZSM/ComposeArticleController.swift:265-268 | normalisation deletes only whitespace and newline characters: the visible text is kept, in order |
| `ContentNormalizer.NormalizeExample` | iZSM/ComposeArticleController.swift:265-268 | " hi \n" normalises to "hi" |
| `ContentNormalizer.WithSignature` | iZSM/ComposeArticleController.swift:269-271 | the content is kept as a prefix, and "\n\n" + signature follows exactly when the setting is on |
| `ContentNormalizer.ComposeContent` | iZSM/ComposeArticleController.swift:265-271 | the submitted body is the normalised body, followed by "\n\n" and the signature exactly when the setting is on |
| `UploadName.LastIndexOf` | iZSM/ComposeArticleController.swift:253 | absent iff the character does not occur; otherwise its last occurrence |
| `UploadName.BaseFileName` | iZSM/ComposeArticleController.swift:252-257 | the result is a prefix of the name, non-empty iff the name is, equal to it iff no "." after index 0, else the name minus "." and a dot-free extension |
| `Attachments.AddPhoto` | iZSM/ComposeArticleController.swift:365-379 | the picker opens iff fewer than 8 are attached, with selection limit 8 − count, at least 1 |
| `Attachments.UntitledNameInjective` | iZSM/ComposeArticleController.swift:436 | different counter values give different "Untitled" names |
| `Attachments.LoadCompleted` | iZSM/ComposeArticleController.swift:425-439 | at the cap or without an image, nothing changes; otherwise one image and one name are appended; a suggested name (even empty) is used verbatim with the counter unchanged, and a missing one gives "Untitled"+counter and increments the counter; the lists stay parallel and within 8 |
| `Attachments.DidFinishPicking` | iZSM/ComposeArticleController.swift:417-443 | a batch of picker loads only appends, to both lists, adds at most one image per item, and keeps the lists parallel and within 8 |
| `Attachments.DidFinishPickingIsRun` | iZSM/ComposeArticleController.swift:417-443 | a batch is the run of the loads of its loadable items, in order, so the facts about runs (distinct generated names) cover it |
| `Attachments.FirstIndexOf` | iZSM/ComposeArticleController.swift:448 | the first index holding the image, or none iff it is absent |
| `Attachments.DeleteButtonPressed` | iZSM/ComposeArticleController.swift:447-451 | a missing or unknown image is a no-op; otherwise exactly one attachment goes; lists stay parallel; the counter is untouched |
| `Attachments.DeleteRemovesFirstMatch` | iZSM/ComposeArticleController.swift:447-451 | deletion removes the first matching (image, name) pair, and the other pairs stay in order |
| `Attachments.StripHiddenAfter` | iZSM/ComposeArticleController.swift:84-94 | if the strip was hidden exactly when the list was empty, it still is after the change; it changes only when the count crosses zero |
| `Attachments.RunKeepsValid` | iZSM/ComposeArticleController.swift:81-94 | any sequence of picker loads and deletions keeps the lists of equal length and the count at most 8 |
| `Attachments.MintedIncreasing` | iZSM/ComposeArticleController.swift:432-438 | the counter never decreases, and the values it gives out along a run strictly increase |
| `Attachments.GeneratedNamesDistinct` | iZSM/ComposeArticleController.swift:432-438 | the names generated along any run of adds and deletes are pairwise distinct |
| `Uploads.ProgressStatusReadsBack` | iZSM/ComposeArticleController.swift:249 | the status is "正在上传: " followed by text from which the position and the total read back |
| `Uploads.ProgressStatusInjective` | iZSM/ComposeArticleController.swift:249 | different (position, total) pairs give different status texts |
| `Uploads.UploadLog` | iZSM/ComposeArticleController.swift:247-263 | one step per attachment, in order: step i uploads image i under the base name of name i after the status i+1 / count, and shows an error only for a displayable failure, independent of the other results |
| `Uploads.UploadsEveryImage` | iZSM/ComposeArticleController.swift:247 | the images uploaded are exactly the attached ones, in order |
| `Uploads.UploadOne` | iZSM/ComposeArticleController.swift:248-262 | one pass of the loop body uploads image i under the base name of name i after the status i+1 / count, and shows an error only for a displayable failure |
| `Uploads.RunUploads` | iZSM/ComposeArticleController.swift:247-263 | the loop produces exactly the upload log: every attachment once, in order, and no error stops it |
| `Dispatch.Route` | iZSM/ComposeArticleController.swift:297-344 | a call is made iff the mode is post or an article is present; it is the call of that mode, with the given title, content and board, the article's id, or its author for mail |
| `Dispatch.KeyCommands` | iZSM/ComposeArticleController.swift:467-481 | command-return is bound to done with the mode's title, and plain escape to cancel titled "取消", in every mode |
| `Composer.Open` | iZSM/ComposeArticleController.swift:199-236 | the controller keeps the mode, board, article, settings and handler flag it was opened with; post starts with done disabled and the others with it enabled; answering modes prefill title and body from the article; everything else editable, no status, no attachments and a zero counter, strip hidden in post and reply modes |
| `Composer.SetEditable` | iZSM/ComposeArticleController.swift:96-107 | done, cancel, title and body follow the flag; the photo button follows it only in post and reply modes; the strip follows it when there are attachments and is untouched otherwise; nothing else changes |
| `Composer.ChangeDoneButton` | iZSM/ComposeArticleController.swift:404-413 | the done button is enabled exactly when the title length is above 0; a nil text changes nothing |
| `Composer.EditTitle` | iZSM/ComposeArticleController.swift:127 | typing in the enabled title field sets the title and re-evaluates the done button, and changes nothing else; a disabled field takes no input |
| `Composer.PhotoButtonPressed` | iZSM/ComposeArticleController.swift:147-151 | the photo button can be pressed only in post and reply modes and while it is enabled; a press opens the picker for the remaining 8 − count slots, or alerts at the cap |
| `Composer.PickerLoaded` | iZSM/ComposeArticleController.swift:84-94 | a picker load applies the completion callback to the attachments and changes nothing else but the strip, which stays hidden exactly when nothing is attached |
| `Composer.DeletePressed` | iZSM/ComposeArticleController.swift:447-451 | on an interactive strip the delete button's removal is applied and nothing else changes but the strip's visibility; the lists stay valid and the strip consistent; a locked strip takes no taps |
| `Composer.Done` | iZSM/ComposeArticleController.swift:242-245 | without board, title or body nothing happens; otherwise the screen is locked and a submission starts |
| `Composer.OnSuccess` | iZSM/ComposeArticleController.swift:273-289 | shows the mode's success text, calls the completion handler once if set, and dismisses |
| `Composer.OnFailure` | iZSM/ComposeArticleController.swift:290-295 | shows the error and unlocks the screen: done, cancel, title and body on, the photo button on in post and reply modes, the strip on when there are attachments; nothing else changes |
| `Composer.Submit` | iZSM/ComposeArticleController.swift:242-344 | a whole press of done: nothing without board, title and body; locked with no call for an answering mode without an article; otherwise success shows the mode's text, completes once and dismisses, and failure shows the error on an unlocked screen |
| `Composer.SubmitNeedsBoardTitleAndContent` | iZSM/ComposeArticleController.swift:243 | with board, title or body missing, done leaves the controller unchanged |
| `Composer.ExactlyOneRemoteCall` | iZSM/ComposeArticleController.swift:243-344 | a started submission uploads all attachments in order, submits the normalised body and makes the single call of its mode, or none when an answering mode lacks an article |
| `Composer.UploadErrorsDoNotStopDispatch` | iZSM/ComposeArticleController.swift:258-262 | whatever the uploads return, every attachment is attempted, and the submitted body and remote call are the same |
| `Composer.SuccessCompletes` | iZSM/ComposeArticleController.swift:273-289 | a successful call ends with the mode's success text, one completion call, and dismissal |
| `Composer.FailureRestoresEditing` | iZSM/ComposeArticleController.swift:290-295 | a failed call leaves the screen editable with done on, and title, body and attachments unchanged, not dismissed |
| `Composer.MissingArticleStaysLocked` | iZSM/ComposeArticleController.swift:309-335 | an answering mode without an article makes no call and leaves every control locked |
| `Composer.DoneHasNoReentryGuard` | iZSM/ComposeArticleController.swift:477 | on the locked screen, done (as command-return triggers it) starts a second submission with the same call |
| `Composer.RetryUploadsAgain` | iZSM/ComposeArticleController.swift:242-263 | after a failed call, the next done uploads every attachment again |
| `Composer.LockUnlockRestores` | iZSM/ComposeArticleController.swift:96-107 | locking then unlocking an editable screen restores its controls, with done on |
| `Composer.PhotoButtonInertWhileLocked` | iZSM/ComposeArticleController.swift:96-107 | once done has locked the screen, a press of the photo button does nothing |

## Left out

- Layout, styling and keyboard avoidance (`setupUI` constraints, `keyboardWillShow`, `updateContentLayout`): these are presentation code and floating-point geometry. Of `setupUI`, only the initial strip visibility and which modes have a photo button are modelled.
- Presentation components: the progress HUD, alerts, the photo picker and image viewer (`imageTapped`), first-responder changes, `viewWillDisappear`, and the network activity indicator. Status texts are modelled as values, not as displays.
- `cancel(_:)` and the escape key command: they only dismiss the screen. The binding is in `Dispatch.KeyCommands`.
- The remote upload and article services (`uploadAttachImage`, `postArticle`, `replyArticle`, `sendMail`, `modifyArticle`): these are foreign network calls, so their results are inputs.
- Dispatch queues and the 1-second delay before the completion handler: threading and timing are modelled as sequential steps. Picker loads complete in the order given. A load that arrives while the screen is locked is not considered.
- The count label, and Swift's counting of grapheme clusters: the model counts characters.
- `Decimal.Show`: does not model a 64-bit overflow of `untitledCounter`, which needs 2^63 generated names.
- `Text.SplitLines`, `Text.Trim`: operate on Unicode scalars, with the character sets written out as Foundation documents them (`whitespaces` as category Zs plus tab, `newlines` as U+000A–U+000D, U+0085, U+2028, U+2029). CoreFoundation's own tables may differ in detail (for example on U+200B). Grapheme clustering is not modelled.
- `iZSM/ArticleContentCell.swift` and `iZSM/NTTabBarController.swift`: cell geometry, label sizing, image loading and tab-bar presentation, with no logic to verify.

=== FILE: attachments.dfy ===
/**
 * The attachment bookkeeping of the compose screen: two parallel lists
 * (images and their upload names), a counter for generated names and a cap
 * of eight attachments.
 */
module Attachments {
  import opened Wrappers
  import opened Decimal

  /** An opaque picked image; handle equality stands for `UIImage` equality. */
  datatype Image = Image(handle: nat)

  /** `maxAttachNumber`. */
  const MaxAttachNumber: nat := 8

  /** `attachedImages`, `attachedImageNames` and `untitledCounter`. */
  datatype Attachments = Attachments(images: seq<Image>, names: seq<string>, untitledCounter: nat) {

    function Count(): nat {
      |images|
    }

    /** The lists are parallel and the cap is respected. */
    predicate Valid() {
      |images| == |names| && |images| <= MaxAttachNumber
    }
  }

  const Empty := Attachments([], [], 0)

  /** Each image paired with its name, in insertion order. */
  function Pairs(a: Attachments): seq<(Image, string)>
    requires |a.images| == |a.names|
  {
    seq(|a.images|, i requires 0 <= i < |a.images| => (a.images[i], a.names[i]))
  }

  /** What the camera button does: an alert when full, otherwise a picker. */
  datatype PhotoAction = CapacityAlert(message: string) | OpenPicker(selectionLimit: nat)

  /** `addPhoto(_:)`. */
  function AddPhoto(a: Attachments): (r: PhotoAction)
    ensures r.OpenPicker? <==> a.Count() < MaxAttachNumber
    ensures r.OpenPicker? ==> a.Count() + r.selectionLimit == MaxAttachNumber
    ensures r.OpenPicker? ==> r.selectionLimit >= 1
  {
    if a.Count() >= MaxAttachNumber then
      CapacityAlert("目前允许最多" + Show(MaxAttachNumber) + "个附件")
    else
      OpenPicker(MaxAttachNumber - a.Count())
  }

  /** The name given to a picked image that has no suggested name. */
  function UntitledName(counter: nat): string {
    "Untitled" + Show(counter)
  }

  /** Different counter values give different generated names. */
  lemma UntitledNameInjective(i: nat, j: nat)
    ensures UntitledName(i) == UntitledName(j) ==> i == j
  {
    if UntitledName(i) == UntitledName(j) {
      assert UntitledName(i)[8..] == Show(i);
      assert UntitledName(j)[8..] == Show(j);
      ShowInjective(i, j);
    }
  }

  /** The result of one picker item's asynchronous load. */
  datatype PickerLoad = PickerLoad(image: Option<Image>, suggestedName: Option<string>)

  /** The load is kept: there is room and an image came back. */
  predicate Accepts(a: Attachments, load: PickerLoad) {
    a.Count() < MaxAttachNumber && load.image.Some?
  }

  /** Keeping the load consumes a counter value for a generated name. */
  predicate Mints(a: Attachments, load: PickerLoad) {
    Accepts(a, load) && load.suggestedName.None?
  }

  /** The load-completion callback of `picker(_:didFinishPicking:)`. */
  function LoadCompleted(a: Attachments, load: PickerLoad): (r: Attachments)
    ensures a.Valid() ==> r.Valid()
    ensures !Accepts(a, load) ==> r == a
    ensures Accepts(a, load) ==>
      && r.images == a.images + [load.image.value]
      && |r.names| == |a.names| + 1
      && r.names[..|a.names|] == a.names
    ensures Accepts(a, load) && load.suggestedName.Some? ==>
      r.names[|a.names|] == load.suggestedName.value && r.untitledCounter == a.untitledCounter
    ensures Mints(a, load) ==>
      r.names[|a.names|] == UntitledName(a.untitledCounter) && r.untitledCounter == a.untitledCounter + 1
  {
    if !Accepts(a, load) then a
    else
      var images := a.images + [load.image.value];
      match load.suggestedName
      case Some(name) =>
        Attachments(images, a.names + [name], a.untitledCounter)
      case None =>
        Attachments(images, a.names + [UntitledName(a.untitledCounter)], a.untitledCounter + 1)
  }

  /** One item the picker returned; items that cannot load an image are skipped. */
  datatype PickerItem = PickerItem(canLoadImage: bool, load: PickerLoad)

  /**
   * `picker(_:didFinishPicking:)`, with the loads completing in the order
   * given: never exceeds the cap and only appends.
   */
  function DidFinishPicking(a: Attachments, items: seq<PickerItem>): (r: Attachments)
    ensures a.Valid() ==> r.Valid()
    ensures |a.images| <= |r.images| <= |a.images| + |items|
    ensures r.images[..|a.images|] == a.images
    ensures a.Valid() ==> |a.names| <= |r.names| && r.names[..|a.names|] == a.names
    ensures r.untitledCounter >= a.untitledCounter
    decreases |items|
  {
    if |items| == 0 then a
    else
      var next := if items[0].canLoadImage then LoadCompleted(a, items[0].load) else a;
      var r := DidFinishPicking(next, items[1..]);
      assert r.images[..|a.images|] == r.images[..|next.images|][..|a.images|];
      assert a.Valid() ==> r.names[..|a.names|] == r.names[..|next.names|][..|a.names|];
      r
  }

  /** `attachedImages.firstIndex(of:)`. */
  function FirstIndexOf(s: seq<Image>, x: Image): (r: Option<nat>)
    ensures r.None? <==> x !in s
    ensures r.Some? ==> r.value < |s| && s[r.value] == x
    ensures r.Some? ==> forall j :: 0 <= j < r.value ==> s[j] != x
  {
    if |s| == 0 then None
    else if s[0] == x then Some(0)
    else
      match FirstIndexOf(s[1..], x)
      case None => None
      case Some(i) => Some(i + 1)
  }

  /** `deleteButtonPressed(in:)` for the tapped view's image, if it has one. */
  function DeleteButtonPressed(a: Attachments, tapped: Option<Image>): (r: Attachments)
    requires |a.images| == |a.names|
    ensures a.Valid() ==> r.Valid()
    ensures r.untitledCounter == a.untitledCounter
    ensures tapped.None? || tapped.value !in a.images ==> r == a
    ensures tapped.Some? && tapped.value in a.images ==> |r.images| == |a.images| - 1
  {
    if tapped.None? then a
    else
      match FirstIndexOf(a.images, tapped.value)
      case None => a
      case Some(i) =>
        Attachments(a.images[..i] + a.images[i + 1..], a.names[..i] + a.names[i + 1..], a.untitledCounter)
  }

  /**
   * Deleting removes the first pair whose image equals the tapped one: the
   * other pairs stay, in order, each image with its own name.
   */
  lemma DeleteRemovesFirstMatch(a: Attachments, image: Image)
    requires a.Valid() && image in a.images
    ensures FirstIndexOf(a.images, image).Some?
    ensures
      var i := FirstIndexOf(a.images, image).value;
      var r := DeleteButtonPressed(a, Some(image));
      && (forall j :: 0 <= j < i ==> a.images[j] != image)
      && Pairs(r) == Pairs(a)[..i] + Pairs(a)[i + 1..]
      && multiset(r.images) == multiset(a.images) - multiset{image}
  {
    var i := FirstIndexOf(a.images, image).value;
    var r := DeleteButtonPressed(a, Some(image));
    assert r.images == a.images[..i] + a.images[i + 1..];
    assert r.names == a.names[..i] + a.names[i + 1..];
    RemovedPairs(a.images, a.names, i);
    assert a.images == a.images[..i] + [image] + a.images[i + 1..];
  }

  /** Removing index `i` from both lists removes the `i`-th pair. */
  lemma RemovedPairs(images: seq<Image>, names: seq<string>, i: nat)
    requires |images| == |names| && i < |images|
    ensures
      var a := Attachments(images, names, 0);
      var r := Attachments(images[..i] + images[i + 1..], names[..i] + names[i + 1..], 0);
      Pairs(r) == Pairs(a)[..i] + Pairs(a)[i + 1..]
  {
    var a := Attachments(images, names, 0);
    var r := Attachments(images[..i] + images[i + 1..], names[..i] + names[i + 1..], 0);
    var p := Pairs(a);
    var q := Pairs(r);
    var expected := p[..i] + p[i + 1..];
    assert |q| == |expected|;
    forall j | 0 <= j < |q|
      ensures q[j] == expected[j]
    {
      if j < i {
        assert r.images[j] == images[j] && r.names[j] == names[j];
      } else {
        assert r.images[j] == images[j + 1] && r.names[j] == names[j + 1];
        assert expected[j] == p[j + 1];
      }
    }
  }

  /**
   * The attachment strip's `isHidden` after `attachedImages` changes count:
   * shown when the list becomes non-empty, hidden when it becomes empty.
   */
  function StripHiddenAfter(oldCount: nat, newCount: nat, hidden: bool): (r: bool)
    ensures hidden == (oldCount == 0) ==> r == (newCount == 0)
    ensures (oldCount == 0) == (newCount == 0) ==> r == hidden
  {
    if oldCount == 0 && newCount > 0 then false
    else if oldCount > 0 && newCount == 0 then true
    else hidden
  }

  /** A user action on the attachment list. */
  datatype Event = Loaded(load: PickerLoad) | Deleted(tapped: Option<Image>)

  function Apply(a: Attachments, e: Event): (r: Attachments)
    requires a.Valid()
    ensures r.Valid()
  {
    match e
    case Loaded(load) => LoadCompleted(a, load)
    case Deleted(tapped) => DeleteButtonPressed(a, tapped)
  }

  function Run(a: Attachments, events: seq<Event>): Attachments
    requires a.Valid()
    decreases |events|
  {
    if |events| == 0 then a else Run(Apply(a, events[0]), events[1..])
  }

  /** The counter values consumed by generated names along a run, in order. */
  function Minted(a: Attachments, events: seq<Event>): seq<nat>
    requires a.Valid()
    decreases |events|
  {
    if |events| == 0 then []
    else
      var e := events[0];
      var here := if e.Loaded? && Mints(a, e.load) then [a.untitledCounter] else [];
      here + Minted(Apply(a, e), events[1..])
  }

  /** Any sequence of adds and deletes keeps the lists parallel and within the cap. */
  lemma {:induction false} RunKeepsValid(a: Attachments, events: seq<Event>)
    requires a.Valid()
    ensures Run(a, events).Valid()
    decreases |events|
  {
    if |events| > 0 {
      RunKeepsValid(Apply(a, events[0]), events[1..]);
    }
  }

  /** The counter only grows, and every value it hands out is fresh. */
  lemma {:induction false} MintedIncreasing(a: Attachments, events: seq<Event>)
    requires a.Valid()
    ensures Run(a, events).untitledCounter >= a.untitledCounter
    ensures forall i :: 0 <= i < |Minted(a, events)| ==>
      a.untitledCounter <= Minted(a, events)[i] < Run(a, events).untitledCounter
    ensures forall i, j :: 0 <= i < j < |Minted(a, events)| ==> Minted(a, events)[i] < Minted(a, events)[j]
    decreases |events|
  {
    if |events| > 0 {
      var e := events[0];
      var next := Apply(a, e);
      MintedIncreasing(next, events[1..]);
      if e.Loaded? && Mints(a, e.load) {
        assert next.untitledCounter == a.untitledCounter + 1;
      } else {
        assert next.untitledCounter == a.untitledCounter;
      }
    }
  }

  /** Names generated along any run of adds and deletes are pairwise distinct. */
  lemma GeneratedNamesDistinct(a: Attachments, events: seq<Event>)
    requires a.Valid()
    ensures forall i, j :: 0 <= i < j < |Minted(a, events)| ==>
      UntitledName(Minted(a, events)[i]) != UntitledName(Minted(a, events)[j])
  {
    var m := Minted(a, events);
    MintedIncreasing(a, events);
    forall i, j | 0 <= i < j < |m|
      ensures UntitledName(m[i]) != UntitledName(m[j])
    {
      UntitledNameInjective(m[i], m[j]);
    }
  }

  /** The events a picker batch amounts to: one load per item that can load an image. */
  function PickerEvents(items: seq<PickerItem>): seq<Event>
    decreases |items|
  {
    if |items| == 0 then []
    else (if items[0].canLoadImage then [Loaded(items[0].load)] else []) + PickerEvents(items[1..])
  }

  lemma RunCons(a: Attachments, e: Event, rest: seq<Event>)
    requires a.Valid()
    ensures Run(a, [e] + rest) == Run(Apply(a, e), rest)
  {
    assert ([e] + rest)[1..] == rest;
  }

  /** A picker batch is a run of its loads, so the facts about runs cover it. */
  lemma {:induction false} DidFinishPickingIsRun(a: Attachments, items: seq<PickerItem>)
    requires a.Valid()
    ensures DidFinishPicking(a, items) == Run(a, PickerEvents(items))
    decreases |items|
  {
    if |items| > 0 {
      var rest := PickerEvents(items[1..]);
      if items[0].canLoadImage {
        RunCons(a, Loaded(items[0].load), rest);
        DidFinishPickingIsRun(LoadCompleted(a, items[0].load), items[1..]);
      } else {
        assert PickerEvents(items) == rest;
        DidFinishPickingIsRun(a, items[1..]);
      }
    }
  }
}

=== FILE: charclasses.dfy ===
/**
 * The two Foundation character sets the controller trims with, as
 * Foundation documents them: `whitespaces` is Unicode general category Zs
 * plus the tab; `newlines` is U+000A..U+000D, U+0085, U+2028 and U+2029.
 * CoreFoundation's own tables may differ in detail (for example on U+200B).
 * The two are disjoint; `whitespacesAndNewlines` is their union.
 */
module CharClasses {

  predicate IsHorizontalSpace(c: char) {
    || c == ' '
    || c == '\t'
    || c == '\U{00A0}'
    || c == '\U{1680}'
    || ('\U{2000}' <= c <= '\U{200A}')
    || c == '\U{202F}'
    || c == '\U{205F}'
    || c == '\U{3000}'
  }

  predicate IsNewline(c: char) {
    || ('\n' <= c <= '\r')
    || c == '\U{0085}'
    || c == '\U{2028}'
    || c == '\U{2029}'
  }

  /** A Foundation character set used with `trimmingCharacters(in:)`. */
  datatype CharSet = Whitespaces | WhitespacesAndNewlines {
    predicate Contains(c: char) {
      match this
      case Whitespaces => IsHorizontalSpace(c)
      case WhitespacesAndNewlines => IsHorizontalSpace(c) || IsNewline(c)
    }
  }
}

=== FILE: composer.dfy ===
/**
 * The compose screen as a state machine: opening in a mode, editing the
 * title and the attachments, submitting (lock, upload, normalise,
 * dispatch) and the success and failure handlers.
 */
module Composer {
  import opened Wrappers
  import opened Attachments
  import opened Uploads
  import opened ContentNormalizer
  import opened Dispatch

  /** `AppSetting` values read once when the controller is created. */
  datatype Settings = Settings(addDeviceSignature: bool, signature: string)

  /** The `isEnabled` / `isEditable` / `isUserInteractionEnabled` flags `setEditable` drives. */
  datatype Controls = Controls(
    done: bool,
    cancel: bool,
    titleField: bool,
    contentView: bool,
    photo: bool,
    attachStrip: bool)

  datatype Controller = Controller(
    mode: Mode,
    boardID: Option<string>,
    article: Option<Article>,
    settings: Settings,
    screenTitle: string,
    title: Option<string>,
    content: Option<string>,
    attachments: Attachments,
    stripHidden: bool,
    controls: Controls,
    status: Option<string>,
    hasCompletionHandler: bool,
    completionCalls: nat,
    dismissed: bool)

  /** Every control the user edits with is enabled (the done button aside). */
  predicate Editable(c: Controller) {
    && c.controls.cancel
    && c.controls.titleField
    && c.controls.contentView
    && (HasAttachments(c.mode) ==> c.controls.photo)
    && c.controls.attachStrip
  }

  /** Every control `setEditable(false)` turns off is off. */
  predicate Locked(c: Controller) {
    && !c.controls.done
    && !c.controls.cancel
    && !c.controls.titleField
    && !c.controls.contentView
    && (HasAttachments(c.mode) ==> !c.controls.photo)
    && (c.attachments.Count() > 0 ==> !c.controls.attachStrip)
  }

  /** In the modes with a strip, it is hidden exactly when nothing is attached. */
  predicate StripConsistent(c: Controller) {
    HasAttachments(c.mode) ==> c.stripHidden == (c.attachments.Count() == 0)
  }

  /**
   * `viewDidLoad()`: `setupUI()` then `setupMode()`. Text fields start
   * empty; the three answering modes prefill them from the article.
   */
  function Open(mode: Mode, boardID: Option<string>, article: Option<Article>, settings: Settings,
                hasCompletionHandler: bool): (c: Controller)
    ensures c.controls.done <==> mode != Post
    ensures mode == Post || article.None? ==> c.title == Some("") && c.content == Some("")
    ensures (mode == Reply || mode == ReplyByMail) && article.Some? ==>
      c.title == Some(article.value.replySubject) && c.content == Some(article.value.quotBody)
    ensures mode == Modify && article.Some? ==>
      c.title == Some(article.value.subject) && c.content == Some(article.value.filterSignatureBody)
    ensures c.screenTitle == ScreenTitle(mode)
    ensures Editable(c) && StripConsistent(c)
    ensures c.attachments.Valid() && c.attachments.Count() == 0
    ensures c.completionCalls == 0 && !c.dismissed
    ensures c.mode == mode && c.boardID == boardID && c.article == article && c.settings == settings
    ensures c.hasCompletionHandler == hasCompletionHandler && c.status.None? && c.attachments == Empty
    ensures c.stripHidden <==> HasAttachments(mode)
  {
    var fields :=
      match article
      case None => (Some(""), Some(""))
      case Some(a) =>
        match mode
        case Post => (Some(""), Some(""))
        case Reply => (Some(a.replySubject), Some(a.quotBody))
        case ReplyByMail => (Some(a.replySubject), Some(a.quotBody))
        case Modify => (Some(a.subject), Some(a.filterSignatureBody));
    Controller(
      mode, boardID, article, settings, ScreenTitle(mode), fields.0, fields.1,
      Empty, HasAttachments(mode), Controls(mode != Post, true, true, true, true, true),
      None, hasCompletionHandler, 0, false)
  }

  /** `setEditable(_:)`. */
  function SetEditable(c: Controller, editable: bool): (r: Controller)
    ensures r.controls.done == editable && r.controls.cancel == editable
    ensures r.controls.titleField == editable && r.controls.contentView == editable
    ensures HasAttachments(c.mode) ==> r.controls.photo == editable
    ensures !HasAttachments(c.mode) ==> r.controls.photo == c.controls.photo
    ensures c.attachments.Count() == 0 ==> r.controls.attachStrip == c.controls.attachStrip
    ensures c.attachments.Count() > 0 ==> r.controls.attachStrip == editable
    ensures r == c.(controls := r.controls)
    ensures !editable ==> Locked(r)
  {
    var photo := if HasAttachments(c.mode) then editable else c.controls.photo;
    var strip := if c.attachments.Count() > 0 then editable else c.controls.attachStrip;
    c.(controls := Controls(editable, editable, editable, editable, photo, strip))
  }

  /** `changeDoneButton(_:)`, given the title field's text. */
  function ChangeDoneButton(c: Controller, text: Option<string>): (r: Controller)
    ensures text.None? ==> r == c
    ensures text.Some? ==> (r.controls.done <==> |text.value| > 0)
    ensures r == c.(controls := c.controls.(done := r.controls.done))
  {
    match text
    case None => c
    case Some(t) => c.(controls := c.controls.(done := |t| > 0))
  }

  /** The user types `text` into the title field; a disabled field takes no input. */
  function EditTitle(c: Controller, text: string): (r: Controller)
    ensures !c.controls.titleField ==> r == c
    ensures c.controls.titleField ==> r.title == Some(text) && (r.controls.done <==> |text| > 0)
    ensures r == c.(title := r.title, controls := c.controls.(done := r.controls.done))
  {
    if !c.controls.titleField then c else ChangeDoneButton(c.(title := Some(text)), Some(text))
  }

  /**
   * A press of the photo button: the button exists only in post and reply
   * modes and takes no press while the screen is locked; otherwise
   * `addPhoto(_:)` on the controller's attachments.
   */
  function PhotoButtonPressed(c: Controller): (r: Option<PhotoAction>)
    ensures r.Some? <==> HasAttachments(c.mode) && c.controls.photo
    ensures r.Some? ==> (r.value.OpenPicker? <==> c.attachments.Count() < MaxAttachNumber)
    ensures r.Some? && r.value.OpenPicker? ==> c.attachments.Count() + r.value.selectionLimit == MaxAttachNumber
  {
    if HasAttachments(c.mode) && c.controls.photo then Some(AddPhoto(c.attachments)) else None
  }

  /** One picker load completing, with the strip's `didSet` update. */
  function PickerLoaded(c: Controller, load: PickerLoad): (r: Controller)
    requires c.attachments.Valid()
    ensures r.attachments.Valid()
    ensures StripConsistent(c) ==> StripConsistent(r)
    ensures r == c.(attachments := LoadCompleted(c.attachments, load), stripHidden := r.stripHidden)
  {
    var next := LoadCompleted(c.attachments, load);
    c.(attachments := next,
       stripHidden := StripHiddenAfter(c.attachments.Count(), next.Count(), c.stripHidden))
  }

  /**
   * A tap on an attachment's delete button, with the strip's `didSet`
   * update; taps on a strip that takes no user interaction are not delivered.
   */
  function DeletePressed(c: Controller, tapped: Option<Image>): (r: Controller)
    requires c.attachments.Valid()
    ensures r.attachments.Valid()
    ensures StripConsistent(c) ==> StripConsistent(r)
    ensures !c.controls.attachStrip ==> r == c
    ensures c.controls.attachStrip ==>
      r == c.(attachments := DeleteButtonPressed(c.attachments, tapped), stripHidden := r.stripHidden)
  {
    if !c.controls.attachStrip then c
    else
      var next := DeleteButtonPressed(c.attachments, tapped);
      c.(attachments := next,
         stripHidden := StripHiddenAfter(c.attachments.Count(), next.Count(), c.stripHidden))
  }

  /** What a started submission does: its uploads, the submitted body and the remote call. */
  datatype Submission = Submission(uploads: seq<UploadStep>, content: string, call: Option<RemoteCall>)

  /** `done(_:)` needs a board, a title and a body. */
  predicate CanSubmit(c: Controller) {
    c.boardID.Some? && c.title.Some? && c.content.Some?
  }

  /**
   * `done(_:)` up to the remote call: lock the screen, upload every
   * attachment (`results` is what each upload returns), normalise the body
   * and pick the remote call. There is no check of the done button or of a
   * submission already in flight.
   */
  function Done(c: Controller, results: seq<UploadResult>): (r: (Controller, Option<Submission>))
    requires c.attachments.Valid() && |results| == c.attachments.Count()
    ensures !CanSubmit(c) ==> r == (c, None)
    ensures CanSubmit(c) ==> r.1.Some? && Locked(r.0) && r.0 == SetEditable(c, false)
  {
    if !CanSubmit(c) then (c, None)
    else
      var uploads := UploadLog(c.attachments.images, c.attachments.names, results);
      var content := ComposeContent(c.content.value, c.settings.addDeviceSignature, c.settings.signature);
      var call := Route(c.mode, c.article, c.boardID.value, c.title.value, content);
      (SetEditable(c, false), Some(Submission(uploads, content, call)))
  }

  /** What the remote article service answered. */
  datatype RemoteResult = RemoteSuccess | RemoteFailure(message: string)

  /** The success handler: mode-specific status, completion handler once, dismissal. */
  function OnSuccess(c: Controller): (r: Controller)
    ensures r.status == Some(SuccessMessage(c.mode))
    ensures r.completionCalls == c.completionCalls + (if c.hasCompletionHandler then 1 else 0)
    ensures r.dismissed
    ensures r.controls == c.controls && r.attachments == c.attachments
  {
    c.(status := Some(SuccessMessage(c.mode)),
       completionCalls := if c.hasCompletionHandler then c.completionCalls + 1 else c.completionCalls,
       dismissed := true)
  }

  /** The failure handler: the error is shown and the screen is unlocked. */
  function OnFailure(c: Controller, message: string): (r: Controller)
    ensures r.status == Some(message)
    ensures r.controls.done && r.controls.cancel && r.controls.titleField && r.controls.contentView
    ensures r.attachments == c.attachments && r.title == c.title && r.content == c.content
    ensures r.completionCalls == c.completionCalls && r.dismissed == c.dismissed
    ensures HasAttachments(c.mode) ==> r.controls.photo
    ensures c.attachments.Count() > 0 ==> r.controls.attachStrip
    ensures r == c.(status := r.status, controls := r.controls)
  {
    SetEditable(c.(status := Some(message)), true)
  }

  /**
   * A whole press of done: the submission and, when a call was made, its
   * handler for the service's answer.
   */
  function Submit(c: Controller, results: seq<UploadResult>, remote: RemoteResult): (r: Controller)
    requires c.attachments.Valid() && |results| == c.attachments.Count()
    ensures !CanSubmit(c) ==> r == c
    ensures CanSubmit(c) && c.mode != Post && c.article.None? ==> r == SetEditable(c, false)
    ensures CanSubmit(c) && (c.mode == Post || c.article.Some?) && remote.RemoteSuccess? ==>
      && r.status == Some(SuccessMessage(c.mode))
      && r.completionCalls == c.completionCalls + (if c.hasCompletionHandler then 1 else 0)
      && r.dismissed
      && Locked(r)
    ensures CanSubmit(c) && (c.mode == Post || c.article.Some?) && remote.RemoteFailure? ==>
      && r.status == Some(remote.message)
      && r == SetEditable(c.(status := Some(remote.message)), true)
  {
    var (locked, submission) := Done(c, results);
    if submission.None? || submission.value.call.None? then locked
    else
      match remote
      case RemoteSuccess => OnSuccess(locked)
      case RemoteFailure(message) => OnFailure(locked, message)
  }

  /** Without a board, a title or a body, done does nothing at all. */
  lemma SubmitNeedsBoardTitleAndContent(c: Controller, results: seq<UploadResult>, remote: RemoteResult)
    requires c.attachments.Valid() && |results| == c.attachments.Count()
    requires !CanSubmit(c)
    ensures Done(c, results) == (c, None)
    ensures Submit(c, results, remote) == c
  {
  }

  /**
   * A started submission uploads every attachment in order, submits the
   * normalised body and makes exactly the remote call of its mode, unless
   * an answering mode has no article.
   */
  lemma ExactlyOneRemoteCall(c: Controller, results: seq<UploadResult>)
    requires c.attachments.Valid() && |results| == c.attachments.Count()
    requires CanSubmit(c)
    ensures
      var s := Done(c, results).1.value;
      && UploadedImages(s.uploads) == c.attachments.images
      && s.content == ComposeContent(c.content.value, c.settings.addDeviceSignature, c.settings.signature)
      && (s.call.Some? <==> c.mode == Post || c.article.Some?)
      && (s.call.Some? ==> CallMode(s.call.value) == c.mode)
      && (s.call.Some? ==> s.call.value.title == c.title.value && s.call.value.content == s.content)
  {
  }

  /** Upload errors are shown but change neither the submitted body nor the remote call. */
  lemma UploadErrorsDoNotStopDispatch(c: Controller, results: seq<UploadResult>, others: seq<UploadResult>)
    requires c.attachments.Valid() && |results| == c.attachments.Count() && |others| == |results|
    requires CanSubmit(c)
    ensures |Done(c, results).1.value.uploads| == c.attachments.Count()
    ensures Done(c, results).0 == Done(c, others).0
    ensures Done(c, results).1.value.content == Done(c, others).1.value.content
    ensures Done(c, results).1.value.call == Done(c, others).1.value.call
  {
  }

  /** Success shows the mode's message, calls the completion handler once and dismisses. */
  lemma SuccessCompletes(c: Controller, results: seq<UploadResult>)
    requires c.attachments.Valid() && |results| == c.attachments.Count()
    requires CanSubmit(c) && (c.mode == Post || c.article.Some?)
    ensures
      var r := Submit(c, results, RemoteSuccess);
      && r.status == Some(SuccessMessage(c.mode))
      && r.completionCalls == c.completionCalls + (if c.hasCompletionHandler then 1 else 0)
      && r.dismissed
  {
  }

  /**
   * Failure gives the screen back: everything editable and the done button
   * on (whatever the title's length), with title, body and attachments kept.
   */
  lemma FailureRestoresEditing(c: Controller, results: seq<UploadResult>, message: string)
    requires c.attachments.Valid() && |results| == c.attachments.Count()
    requires CanSubmit(c) && (c.mode == Post || c.article.Some?)
    requires Editable(c)
    ensures
      var r := Submit(c, results, RemoteFailure(message));
      && Editable(r) && r.controls.done
      && r.title == c.title && r.content == c.content && r.attachments == c.attachments
      && r.status == Some(message)
      && r.completionCalls == c.completionCalls && r.dismissed == c.dismissed
  {
  }

  /** An answering mode without an article makes no call and the screen stays locked. */
  lemma MissingArticleStaysLocked(c: Controller, results: seq<UploadResult>, remote: RemoteResult)
    requires c.attachments.Valid() && |results| == c.attachments.Count()
    requires CanSubmit(c) && c.mode != Post && c.article.None?
    ensures Done(c, results).1.value.call.None?
    ensures Locked(Submit(c, results, remote))
    ensures !Submit(c, results, remote).dismissed || c.dismissed
  {
  }

  /**
   * done has no re-entry guard: on the locked screen (done button off),
   * done again, as the command-return key triggers it, starts a second
   * submission with the same remote call.
   */
  lemma DoneHasNoReentryGuard(c: Controller, results: seq<UploadResult>)
    requires c.attachments.Valid() && |results| == c.attachments.Count()
    requires CanSubmit(c)
    ensures
      var (locked, first) := Done(c, results);
      && !locked.controls.done
      && KeyCommands(locked.mode)[0].action == DoneAction
      && Done(locked, results).1.Some?
      && Done(locked, results).1.value.call == first.value.call
  {
  }

  /** A retry after a failed submission uploads every attachment again. */
  lemma RetryUploadsAgain(c: Controller, results: seq<UploadResult>, message: string)
    requires c.attachments.Valid() && |results| == c.attachments.Count()
    requires CanSubmit(c) && (c.mode == Post || c.article.Some?)
    ensures
      var failed := Submit(c, results, RemoteFailure(message));
      && failed.attachments == c.attachments
      && UploadedImages(Done(failed, results).1.value.uploads) == c.attachments.images
  {
  }

  /** While a submission has the screen locked, the photo button does nothing. */
  lemma PhotoButtonInertWhileLocked(c: Controller, results: seq<UploadResult>)
    requires c.attachments.Valid() && |results| == c.attachments.Count()
    requires CanSubmit(c)
    ensures PhotoButtonPressed(Done(c, results).0).None?
  {
  }

  /** Locking and then unlocking restores an editable screen with the done button on. */
  lemma LockUnlockRestores(c: Controller)
    requires Editable(c)
    ensures SetEditable(SetEditable(c, false), true).controls == c.controls.(done := true)
  {
  }
}

=== FILE: decimal.dfy ===
/**
 * Decimal rendering of non-negative integers, as Swift's string
 * interpolation `"\(n)"` writes them: digits only, no sign, no leading zero.
 * Used for the generated attachment names and the upload progress text.
 */
module Decimal {

  predicate IsDigit(c: char) {
    '0' <= c <= '9'
  }

  function DigitChar(d: nat): (c: char)
    requires d < 10
    ensures IsDigit(c)
  {
    (48 + d) as char
  }

  function DigitValue(c: char): nat {
    if IsDigit(c) then (c as int) - 48 else 0
  }

  /** The decimal text of `n`. */
  function Show(n: nat): (s: string)
    ensures |s| >= 1
    ensures forall i :: 0 <= i < |s| ==> IsDigit(s[i])
    ensures |s| > 1 ==> s[0] != '0'
    ensures n < 10 <==> |s| == 1
  {
    if n < 10 then [DigitChar(n)] else Show(n / 10) + [DigitChar(n % 10)]
  }

  /** Reads a string of digits back as a number (the inverse of Show). */
  function Parse(s: string): nat
    decreases |s|
  {
    if |s| == 0 then 0 else 10 * Parse(s[..|s| - 1]) + DigitValue(s[|s| - 1])
  }

  lemma {:induction false} ParseShow(n: nat)
    ensures Parse(Show(n)) == n
  {
    var s := Show(n);
    if n < 10 {
      assert s[..|s| - 1] == [];
    } else {
      assert s[..|s| - 1] == Show(n / 10);
      ParseShow(n / 10);
    }
  }

  /** Distinct numbers have distinct decimal texts. */
  lemma ShowInjective(a: nat, b: nat)
    ensures Show(a) == Show(b) ==> a == b
  {
    ParseShow(a);
    ParseShow(b);
  }

  /** Length of the run of digits at the start of `s`. */
  function DigitRun(s: string): (n: nat)
    ensures n <= |s|
    decreases |s|
  {
    if |s| == 0 || !IsDigit(s[0]) then 0 else 1 + DigitRun(s[1..])
  }

  /** A digit run ends at the first character that is not a digit. */
  lemma {:induction false} DigitRunStops(digits: string, rest: string)
    requires forall i :: 0 <= i < |digits| ==> IsDigit(digits[i])
    requires |rest| > 0 && !IsDigit(rest[0])
    ensures DigitRun(digits + rest) == |digits|
    decreases |digits|
  {
    if |digits| > 0 {
      assert (digits + rest)[1..] == digits[1..] + rest;
      DigitRunStops(digits[1..], rest);
    } else {
      assert digits + rest == rest;
    }
  }
}

=== FILE: dispatch.dfy ===
/**
 * The four compose modes and the one remote operation each of them
 * submits to, plus the mode-specific texts the screen shows.
 */
module Dispatch {
  import opened Wrappers

  /** `ComposeArticleController.Mode`. */
  datatype Mode = Post | Reply | ReplyByMail | Modify

  /** The fields of the article being answered or edited that the controller reads. */
  datatype Article = Article(
    id: int,
    authorID: string,
    subject: string,
    replySubject: string,
    quotBody: string,
    filterSignatureBody: string)

  /** A call into the remote article service. */
  datatype RemoteCall =
    | PostArticle(title: string, content: string, boardID: string)
    | ReplyArticle(articleID: int, boardID: string, title: string, content: string)
    | SendMail(to: string, title: string, content: string)
    | ModifyArticle(articleID: int, boardID: string, title: string, content: string)

  /** The mode a remote call serves. */
  function CallMode(call: RemoteCall): Mode {
    match call
    case PostArticle(_, _, _) => Post
    case ReplyArticle(_, _, _, _) => Reply
    case SendMail(_, _, _) => ReplyByMail
    case ModifyArticle(_, _, _, _) => Modify
  }

  /**
   * The `switch self.mode` of `done(_:)`: the remote call made for a mode,
   * or none when a mode that needs an article has none.
   */
  function Route(mode: Mode, article: Option<Article>, boardID: string, title: string, content: string)
    : (r: Option<RemoteCall>)
    ensures r.Some? <==> mode == Post || article.Some?
    ensures r.Some? ==> CallMode(r.value) == mode
    ensures r.Some? ==> r.value.title == title && r.value.content == content
    ensures r.Some? && !r.value.SendMail? ==> r.value.boardID == boardID
    ensures r.Some? && (r.value.ReplyArticle? || r.value.ModifyArticle?) ==> r.value.articleID == article.value.id
    ensures r.Some? && r.value.SendMail? ==> r.value.to == article.value.authorID
  {
    match mode
    case Post => Some(PostArticle(title, content, boardID))
    case Reply =>
      if article.None? then None else Some(ReplyArticle(article.value.id, boardID, title, content))
    case ReplyByMail =>
      if article.None? then None else Some(SendMail(article.value.authorID, title, content))
    case Modify =>
      if article.None? then None else Some(ModifyArticle(article.value.id, boardID, title, content))
  }

  /** The modes whose screen has a camera button and an attachment strip. */
  predicate HasAttachments(mode: Mode) {
    mode == Post || mode == Reply
  }

  /** The success status shown after the remote call succeeds. */
  function SuccessMessage(mode: Mode): string {
    match mode
    case Post => "发表成功"
    case Reply => "回复成功"
    case ReplyByMail => "回复成功"
    case Modify => "修改成功"
  }

  /** The navigation title set by `setupMode()`. */
  function ScreenTitle(mode: Mode): string {
    match mode
    case Post => "发表文章"
    case Reply => "回复文章"
    case ReplyByMail => "私信回复"
    case Modify => "修改文章"
  }

  /** The title of the command-return key command set by `setupKeyCommand()`. */
  function DoneKeyTitle(mode: Mode): string {
    match mode
    case Post => "发表"
    case Reply => "回复"
    case ReplyByMail => "回复"
    case Modify => "完成"
  }

  /** Which operation a key command triggers. */
  datatype Action = DoneAction | CancelAction

  datatype KeyCommand = KeyCommand(title: string, action: Action, input: string, withCommand: bool)

  /**
   * `setupKeyCommand()`: command-return triggers `done` and escape triggers
   * `cancel` in every mode, whatever the state of the buttons.
   */
  function KeyCommands(mode: Mode): (r: seq<KeyCommand>)
    ensures |r| == 2
    ensures forall i :: 0 <= i < |r| && r[i].action == DoneAction ==> r[i].input == "\r" && r[i].withCommand
    ensures r[0].action == DoneAction && r[1].action == CancelAction
    ensures r[1].input == "\U{1B}" && !r[1].withCommand
    ensures r[0].title == DoneKeyTitle(mode) && r[1].title == "取消"
  {
    [KeyCommand(DoneKeyTitle(mode), DoneAction, "\r", true), KeyCommand("取消", CancelAction, "\U{1B}", false)]
  }
}

=== FILE: normalizer.dfy ===
/**
 * The body clean-up `done(_:)` applies before submitting: split at every
 * newline character, trim horizontal whitespace from each line, rejoin with
 * "\n", trim whitespace and newlines from the whole, and optionally append
 * the device signature.
 */
module ContentNormalizer {
  import opened CharClasses
  import opened Text

  /** Every line break is a line feed. */
  predicate LineFeedsOnly(s: string) {
    forall i :: 0 <= i < |s| && IsNewline(s[i]) ==> s[i] == '\n'
  }

  /** No line starts or ends with horizontal whitespace next to a line break. */
  predicate LineEdgesTrimmed(s: string) {
    && (forall i :: 0 <= i < |s| - 1 && IsNewline(s[i]) ==> !IsHorizontalSpace(s[i + 1]))
    && (forall i :: 0 < i < |s| && IsNewline(s[i]) ==> !IsHorizontalSpace(s[i - 1]))
  }

  /** Neither end of `s` is whitespace or a newline. */
  predicate OuterTrimmed(s: string) {
    |s| == 0 || (!WhitespacesAndNewlines.Contains(s[0]) && !WhitespacesAndNewlines.Contains(s[|s| - 1]))
  }

  /** The shape of a normalised body. */
  predicate Normalized(s: string) {
    LineFeedsOnly(s) && LineEdgesTrimmed(s) && OuterTrimmed(s)
  }

  /** Neither end of a single line is horizontal whitespace. */
  predicate EndsNotSpace(s: string) {
    |s| == 0 || (!IsHorizontalSpace(s[0]) && !IsHorizontalSpace(s[|s| - 1]))
  }

  function TrimLines(lines: seq<string>): seq<string> {
    seq(|lines|, k requires 0 <= k < |lines| => Trim(lines[k], Whitespaces))
  }

  /** The body as submitted, before any signature. */
  function Normalize(body: string): (r: string)
    ensures Normalized(r)
  {
    NormalizeShape(body);
    Trim(Join(TrimLines(SplitLines(body))), WhitespacesAndNewlines)
  }

  /** Appends "\n\n" and the signature when the setting is on. */
  function WithSignature(content: string, addDeviceSignature: bool, signature: string): (r: string)
    ensures !addDeviceSignature ==> r == content
    ensures addDeviceSignature <==> |r| == |content| + 2 + |signature|
    ensures addDeviceSignature ==> r[..|content|] == content && r[|content|..] == "\n\n" + signature
  {
    if addDeviceSignature then
      var r := content + "\n\n" + signature;
      assert r[..|content|] == content;
      assert r[|content|..] == "\n\n" + signature;
      r
    else
      content
  }

  /**
   * The body as submitted: the normalised body, followed by "\n\n" and
   * the signature exactly when the setting is on; the signature itself is
   * not trimmed.
   */
  function ComposeContent(body: string, addDeviceSignature: bool, signature: string): (r: string)
    ensures !addDeviceSignature ==> r == Normalize(body) && Normalized(r)
    ensures addDeviceSignature ==> r == Normalize(body) + "\n\n" + signature
  {
    WithSignature(Normalize(body), addDeviceSignature, signature)
  }

  /** Each line of TrimLines is newline-free with untrimmed ends removed. */
  lemma TrimLinesClean(lines: seq<string>)
    requires forall k :: 0 <= k < |lines| ==> NoNewline(lines[k])
    ensures forall k :: 0 <= k < |lines| ==> NoNewline(TrimLines(lines)[k]) && EndsNotSpace(TrimLines(lines)[k])
  {
    forall k | 0 <= k < |lines|
      ensures NoNewline(TrimLines(lines)[k])
    {
      var a, b := TrimSlice(lines[k], Whitespaces);
      assert TrimLines(lines)[k] == lines[k][a..b];
    }
  }

  /** Joining trimmed newline-free lines with "\n" gives a string with clean line edges. */
  lemma {:induction false} JoinClean(lines: seq<string>)
    requires forall k :: 0 <= k < |lines| ==> NoNewline(lines[k]) && EndsNotSpace(lines[k])
    ensures LineFeedsOnly(Join(lines))
    ensures LineEdgesTrimmed(Join(lines))
    ensures |Join(lines)| > 0 ==> !IsHorizontalSpace(Join(lines)[0])
    decreases |lines|
  {
    if |lines| <= 1 {
    } else {
      var l := lines[0];
      var r := Join(lines[1..]);
      JoinClean(lines[1..]);
      var s := l + "\n" + r;
      assert Join(lines) == s;
      var n := |l|;
      forall i | 0 <= i < |s| && IsNewline(s[i])
        ensures s[i] == '\n'
      {
        if i > n {
          assert s[i] == r[i - n - 1];
        }
      }
      forall i | 0 <= i < |s| - 1 && IsNewline(s[i])
        ensures !IsHorizontalSpace(s[i + 1])
      {
        if i == n {
          assert s[i + 1] == r[0];
        } else if i > n {
          assert s[i] == r[i - n - 1];
          assert s[i + 1] == r[i - n];
        }
      }
      forall i | 0 < i < |s| && IsNewline(s[i])
        ensures !IsHorizontalSpace(s[i - 1])
      {
        if i == n {
          assert s[i - 1] == l[n - 1];
        } else if i > n + 1 {
          assert s[i] == r[i - n - 1];
          assert s[i - 1] == r[i - n - 2];
        }
      }
    }
  }

  /** Every normalised body has the Normalized shape. */
  lemma NormalizeShape(body: string)
    ensures Normalized(Trim(Join(TrimLines(SplitLines(body))), WhitespacesAndNewlines))
  {
    var lines := SplitLines(body);
    TrimLinesClean(lines);
    JoinClean(TrimLines(lines));
    NormalizedAfterOuterTrim(Join(TrimLines(lines)));
  }

  /** Trimming the whole string keeps clean line edges and cleans its ends. */
  lemma NormalizedAfterOuterTrim(s: string)
    requires LineFeedsOnly(s) && LineEdgesTrimmed(s)
    ensures Normalized(Trim(s, WhitespacesAndNewlines))
  {
    var a, b := TrimSlice(s, WhitespacesAndNewlines);
    var t := s[a..b];
    forall i | 0 <= i < |t| - 1 && IsNewline(t[i])
      ensures !IsHorizontalSpace(t[i + 1])
    {
      assert t[i] == s[a + i] && t[i + 1] == s[a + i + 1];
    }
    forall i | 0 < i < |t| && IsNewline(t[i])
      ensures !IsHorizontalSpace(t[i - 1])
    {
      assert t[i] == s[a + i] && t[i - 1] == s[a + i - 1];
    }
  }

  /** The lines of a string with clean edges are already trimmed. */
  lemma {:induction false} SplitLinesTrimmed(s: string)
    requires LineEdgesTrimmed(s) && EndsNotSpace(s)
    ensures forall k :: 0 <= k < |SplitLines(s)| ==> EndsNotSpace(SplitLines(s)[k])
    decreases |s|
  {
    var i := FirstNewline(s);
    if i < |s| {
      var t := s[i + 1..];
      assert LineEdgesTrimmed(t) by {
        forall j | 0 <= j < |t| - 1 && IsNewline(t[j])
          ensures !IsHorizontalSpace(t[j + 1])
        {
          assert t[j] == s[i + 1 + j] && t[j + 1] == s[i + 2 + j];
        }
        forall j | 0 < j < |t| && IsNewline(t[j])
          ensures !IsHorizontalSpace(t[j - 1])
        {
          assert t[j] == s[i + 1 + j] && t[j - 1] == s[i + j];
        }
      }
      if |t| > 0 {
        assert t[0] == s[i + 1];
        assert t[|t| - 1] == s[|s| - 1];
      }
      SplitLinesTrimmed(t);
      var lines := SplitLines(s);
      assert lines == [s[..i]] + SplitLines(t);
      forall k | 0 <= k < |lines|
        ensures EndsNotSpace(lines[k])
      {
        if k > 0 {
          assert lines[k] == SplitLines(t)[k - 1];
        } else if i > 0 {
          assert lines[0][i - 1] == s[i - 1];
        }
      }
    }
  }

  /** A normalised body is a fixed point of Normalize. */
  lemma NormalizeFixesNormalized(s: string)
    requires Normalized(s)
    ensures Normalize(s) == s
  {
    var lines := SplitLines(s);
    SplitLinesTrimmed(s);
    forall k | 0 <= k < |lines|
      ensures TrimLines(lines)[k] == lines[k]
    {
      TrimFixed(lines[k], Whitespaces);
    }
    assert TrimLines(lines) == lines;
    JoinSplitLines(s);
    assert LineFeeds(s) == s;
    TrimFixed(s, WhitespacesAndNewlines);
  }

  /** Normalising an already normalised body changes nothing. */
  lemma NormalizeIdempotent(body: string)
    ensures Normalize(Normalize(body)) == Normalize(body)
  {
    NormalizeFixesNormalized(Normalize(body));
  }

  /** `lines` without its leading empty lines. */
  function DropLeadingEmpty(lines: seq<string>): seq<string>
    decreases |lines|
  {
    if |lines| > 0 && lines[0] == "" then DropLeadingEmpty(lines[1..]) else lines
  }

  /** `lines` without its trailing empty lines. */
  function DropTrailingEmpty(lines: seq<string>): seq<string>
    decreases |lines|
  {
    if |lines| > 0 && lines[|lines| - 1] == "" then DropTrailingEmpty(lines[..|lines| - 1]) else lines
  }

  function DropEmptyEnds(lines: seq<string>): seq<string> {
    DropTrailingEmpty(DropLeadingEmpty(lines))
  }

  /** A leading empty line contributes only a line feed, which the outer trim drops. */
  lemma TrimJoinLeadingEmpty(lines: seq<string>)
    requires |lines| >= 2 && lines[0] == ""
    ensures Trim(Join(lines), WhitespacesAndNewlines) == Trim(Join(lines[1..]), WhitespacesAndNewlines)
  {
    assert [lines[0]] + lines[1..] == lines;
    JoinCons(lines[0], lines[1..]);
    assert Join(lines) == ['\n'] + Join(lines[1..]);
    TrimDropsLeading('\n', Join(lines[1..]), WhitespacesAndNewlines);
  }

  /** A trailing empty line contributes only a line feed, which the outer trim drops. */
  lemma TrimJoinTrailingEmpty(lines: seq<string>)
    requires |lines| >= 2 && lines[|lines| - 1] == ""
    ensures Trim(Join(lines), WhitespacesAndNewlines) == Trim(Join(lines[..|lines| - 1]), WhitespacesAndNewlines)
  {
    var init := lines[..|lines| - 1];
    assert init + [""] == lines;
    JoinSnoc(init, "");
    assert Join(lines) == Join(init) + ['\n'];
    TrimDropsTrailing(Join(init), '\n', WhitespacesAndNewlines);
  }

  /** With visible first and last lines, the joined text is already trimmed. */
  lemma TrimJoinVisibleEnds(lines: seq<string>)
    requires |lines| >= 1 && lines[0] != "" && lines[|lines| - 1] != ""
    requires EndsNotSpace(lines[0]) && EndsNotSpace(lines[|lines| - 1])
    requires NoNewline(lines[0]) && NoNewline(lines[|lines| - 1])
    ensures Trim(Join(lines), WhitespacesAndNewlines) == Join(lines)
  {
    var j := Join(lines);
    var first := lines[0];
    var last := lines[|lines| - 1];
    JoinEnds(lines);
    assert j[0] == first[0];
    assert j[|j| - 1] == last[|last| - 1];
    TrimFixed(j, WhitespacesAndNewlines);
  }

  /** Dropping a trailing empty line when the first line is visible. */
  lemma DropEmptyEndsTrailing(lines: seq<string>)
    requires |lines| >= 2 && lines[0] != "" && lines[|lines| - 1] == ""
    ensures DropEmptyEnds(lines) == DropEmptyEnds(lines[..|lines| - 1])
  {
    var init := lines[..|lines| - 1];
    assert DropLeadingEmpty(init) == init;
    assert DropLeadingEmpty(lines) == lines;
  }

  /** With visible first and last lines there is nothing to drop. */
  lemma DropEmptyEndsVisible(lines: seq<string>)
    requires |lines| >= 1 && lines[0] != "" && lines[|lines| - 1] != ""
    ensures DropEmptyEnds(lines) == lines
  {
  }

  /** Newline-free lines with no whitespace at their ends. */
  predicate CleanLines(lines: seq<string>) {
    forall k :: 0 <= k < |lines| ==> NoNewline(lines[k]) && EndsNotSpace(lines[k])
  }

  /**
   * The outer trim of the joined, trimmed lines removes exactly the empty
   * lines at both ends.
   */
  lemma {:induction false} TrimJoinedLines(lines: seq<string>)
    requires CleanLines(lines)
    ensures Trim(Join(lines), WhitespacesAndNewlines) == Join(DropEmptyEnds(lines))
    decreases |lines|
  {
    if |lines| == 0 {
    } else if lines[0] == "" {
      if |lines| == 1 {
        assert DropLeadingEmpty(lines[1..]) == [];
      } else {
        TrimJoinLeadingEmpty(lines);
        TrimJoinedLines(lines[1..]);
      }
    } else if lines[|lines| - 1] == "" {
      TrimJoinTrailingEmpty(lines);
      TrimJoinedLines(lines[..|lines| - 1]);
      DropEmptyEndsTrailing(lines);
    } else {
      TrimJoinVisibleEnds(lines);
      DropEmptyEndsVisible(lines);
    }
  }

  /**
   * A reference definition of normalisation: the trimmed lines of the body,
   * without the empty lines at its start and end, joined with "\n".
   */
  lemma NormalizeReference(body: string)
    ensures Normalize(body) == Join(DropEmptyEnds(TrimLines(SplitLines(body))))
  {
    TrimLinesClean(SplitLines(body));
    TrimJoinedLines(TrimLines(SplitLines(body)));
  }

  /** Trimming each line keeps the visible characters of the joined text. */
  lemma {:induction false} StripJoinTrimLines(lines: seq<string>)
    ensures Strip(Join(TrimLines(lines))) == Strip(Join(lines))
    decreases |lines|
  {
    if |lines| == 1 {
      StripTrim(lines[0], Whitespaces);
    } else if |lines| > 1 {
      var tl := TrimLines(lines);
      assert tl == [tl[0]] + TrimLines(lines[1..]);
      assert [lines[0]] + lines[1..] == lines;
      JoinCons(tl[0], TrimLines(lines[1..]));
      JoinCons(lines[0], lines[1..]);
      StripConcat(tl[0] + "\n", Join(TrimLines(lines[1..])));
      StripConcat(tl[0], "\n");
      StripConcat(lines[0] + "\n", Join(lines[1..]));
      StripConcat(lines[0], "\n");
      StripTrim(lines[0], Whitespaces);
      StripJoinTrimLines(lines[1..]);
    }
  }

  /** Normalising deletes only whitespace and newlines: the visible text is kept, in order. */
  lemma NormalizeKeepsText(body: string)
    ensures Strip(Normalize(body)) == Strip(body)
  {
    var lines := SplitLines(body);
    StripTrim(Join(TrimLines(lines)), WhitespacesAndNewlines);
    StripJoinTrimLines(lines);
    JoinSplitLines(body);
    StripLineFeeds(body);
  }

  /** A worked example: surrounding spaces and the final line break go. */
  lemma NormalizeExample()
    ensures Normalize(" hi \n") == "hi"
  {
    NormalizeReference(" hi \n");
    ExampleLines();
    ExampleTrimmedLines();
    assert DropLeadingEmpty(["hi", ""]) == ["hi", ""];
    assert ["hi", ""][..1] == ["hi"];
    assert Join(["hi"]) == "hi";
  }

  lemma ExampleTrimmedLines()
    ensures TrimLines([" hi ", ""]) == ["hi", ""]
  {
    TrimUnique(" hi ", Whitespaces, 1, 3);
    assert " hi "[1..3] == "hi";
    assert Trim("", Whitespaces) == "";
  }

  lemma ExampleLines()
    ensures SplitLines(" hi \n") == [" hi ", ""]
  {
    var body := " hi \n";
    assert FirstNewline(body[4..]) == 0;
    assert FirstNewline(body[3..]) == 1 by { assert body[3..][1..] == body[4..]; }
    assert FirstNewline(body[2..]) == 2 by { assert body[2..][1..] == body[3..]; }
    assert FirstNewline(body[1..]) == 3 by { assert body[1..][1..] == body[2..]; }
    assert FirstNewline(body) == 4 by { assert body[1..] == body[1..]; }
    assert body[..4] == " hi ";
    assert body[5..] == "";
  }
}

=== FILE: text.dfy ===
/**
 * The Foundation string operations the controller relies on, over
 * `seq<char>`: `trimmingCharacters(in:)`, `components(separatedBy: .newlines)`
 * and `joined(separator: "\n")`.
 */
module Text {
  import opened CharClasses

  predicate NoNewline(s: string) {
    forall i :: 0 <= i < |s| ==> !IsNewline(s[i])
  }

  /** Length of the longest prefix of `s` made of characters of `k`. */
  function LeadingRun(s: string, k: CharSet): (n: nat)
    ensures n <= |s|
    ensures forall i :: 0 <= i < n ==> k.Contains(s[i])
    ensures n < |s| ==> !k.Contains(s[n])
  {
    if |s| == 0 || !k.Contains(s[0]) then 0 else 1 + LeadingRun(s[1..], k)
  }

  /** Length of the longest suffix of `s` made of characters of `k`. */
  function TrailingRun(s: string, k: CharSet): (n: nat)
    ensures n <= |s|
    ensures forall i :: |s| - n <= i < |s| ==> k.Contains(s[i])
    ensures n < |s| ==> !k.Contains(s[|s| - n - 1])
  {
    if |s| == 0 || !k.Contains(s[|s| - 1]) then 0 else 1 + TrailingRun(s[..|s| - 1], k)
  }

  /** `s.trimmingCharacters(in: k)`: drops characters of `k` from both ends. */
  function Trim(s: string, k: CharSet): (r: string)
    ensures |r| <= |s|
    ensures |r| == 0 || (!k.Contains(r[0]) && !k.Contains(r[|r| - 1]))
  {
    var a := LeadingRun(s, k);
    var b := TrailingRun(s[a..], k);
    s[a..|s| - b]
  }

  /**
   * Trim removes exactly a run of `k` characters at each end and keeps the
   * contiguous middle: the result is the slice `s[a..b]`, and everything
   * outside it belongs to `k`.
   */
  lemma TrimSlice(s: string, k: CharSet) returns (a: nat, b: nat)
    ensures a <= b <= |s|
    ensures Trim(s, k) == s[a..b]
    ensures forall i :: 0 <= i < a ==> k.Contains(s[i])
    ensures forall i :: b <= i < |s| ==> k.Contains(s[i])
  {
    a := LeadingRun(s, k);
    var t := s[a..];
    var n := TrailingRun(t, k);
    b := |s| - n;
    forall i | b <= i < |s|
      ensures k.Contains(s[i])
    {
      assert s[i] == t[i - a];
    }
  }

  /** A string whose ends are not in `k` is left unchanged by Trim. */
  lemma TrimFixed(s: string, k: CharSet)
    requires |s| == 0 || (!k.Contains(s[0]) && !k.Contains(s[|s| - 1]))
    ensures Trim(s, k) == s
  {
    assert LeadingRun(s, k) == 0;
    assert s[0..] == s;
  }

  /** Trimming twice is trimming once. */
  lemma TrimIdempotent(s: string, k: CharSet)
    ensures Trim(Trim(s, k), k) == Trim(s, k)
  {
    TrimFixed(Trim(s, k), k);
  }

  /** Index of the first newline character of `s`, or |s| when there is none. */
  function FirstNewline(s: string): (i: nat)
    ensures i <= |s|
    ensures forall j :: 0 <= j < i ==> !IsNewline(s[j])
    ensures i < |s| ==> IsNewline(s[i])
  {
    if |s| == 0 || IsNewline(s[0]) then 0 else 1 + FirstNewline(s[1..])
  }

  /**
   * `s.components(separatedBy: .newlines)`: cuts at every single newline
   * character, so "\r\n" yields an empty line between its two characters.
   */
  function SplitLines(s: string): (lines: seq<string>)
    ensures |lines| >= 1
    ensures forall k :: 0 <= k < |lines| ==> NoNewline(lines[k])
    decreases |s|
  {
    var i := FirstNewline(s);
    if i == |s| then [s] else [s[..i]] + SplitLines(s[i + 1..])
  }

  /** `lines.joined(separator: "\n")`. */
  function Join(lines: seq<string>): (r: string)
    ensures |lines| == 0 ==> r == ""
    ensures |lines| >= 1 ==> lines[0] <= r
    decreases |lines|
  {
    if |lines| == 0 then ""
    else if |lines| == 1 then lines[0]
    else lines[0] + "\n" + Join(lines[1..])
  }

  /** `s` with every newline character replaced by a line feed. */
  function LineFeeds(s: string): string {
    seq(|s|, i requires 0 <= i < |s| => if IsNewline(s[i]) then '\n' else s[i])
  }

  /** LineFeeds leaves a newline-free string alone. */
  lemma LineFeedsNoNewline(s: string)
    requires NoNewline(s)
    ensures LineFeeds(s) == s
  {
  }

  /** LineFeeds across the first line break of `s`. */
  lemma LineFeedsAtBreak(s: string, i: nat)
    requires i < |s| && IsNewline(s[i]) && NoNewline(s[..i])
    ensures LineFeeds(s) == s[..i] + "\n" + LineFeeds(s[i + 1..])
  {
    var t := s[..i] + "\n" + LineFeeds(s[i + 1..]);
    forall j | 0 <= j < |s|
      ensures LineFeeds(s)[j] == t[j]
    {
      if j < i {
        assert s[..i][j] == s[j];
      } else if j > i {
        assert t[j] == LineFeeds(s[i + 1..])[j - i - 1];
        assert s[i + 1..][j - i - 1] == s[j];
      }
    }
  }

  /** Join of a first line and at least one more. */
  lemma JoinCons(line: string, tail: seq<string>)
    requires |tail| >= 1
    ensures Join([line] + tail) == line + "\n" + Join(tail)
  {
    assert ([line] + tail)[1..] == tail;
  }

  /** Splitting and rejoining with "\n" only rewrites each line break to a line feed. */
  lemma {:induction false} JoinSplitLines(s: string)
    ensures Join(SplitLines(s)) == LineFeeds(s)
    decreases |s|
  {
    var i := FirstNewline(s);
    if i == |s| {
      LineFeedsNoNewline(s);
    } else {
      var rest := s[i + 1..];
      assert SplitLines(s) == [s[..i]] + SplitLines(rest);
      JoinCons(s[..i], SplitLines(rest));
      JoinSplitLines(rest);
      LineFeedsAtBreak(s, i);
    }
  }

  /** Joining newline-free lines and splitting again gives the lines back. */
  lemma {:induction false} SplitJoinLines(lines: seq<string>)
    requires |lines| >= 1
    requires forall k :: 0 <= k < |lines| ==> NoNewline(lines[k])
    ensures SplitLines(Join(lines)) == lines
    decreases |lines|
  {
    var s := Join(lines);
    var l := lines[0];
    if |lines| == 1 {
      assert FirstNewline(s) == |s|;
    } else {
      var rest := Join(lines[1..]);
      assert s == l + "\n" + rest;
      assert s[|l|] == '\n';
      assert FirstNewline(s) == |l|;
      assert s[..|l|] == l;
      assert s[|l| + 1..] == rest;
      SplitJoinLines(lines[1..]);
      assert [l] + lines[1..] == lines;
    }
  }

  /** A trim is determined by where the kept middle starts and ends. */
  lemma TrimUnique(s: string, k: CharSet, a: nat, b: nat)
    requires a <= b <= |s|
    requires forall i :: 0 <= i < a ==> k.Contains(s[i])
    requires forall i :: b <= i < |s| ==> k.Contains(s[i])
    requires a < b ==> !k.Contains(s[a]) && !k.Contains(s[b - 1])
    ensures Trim(s, k) == s[a..b]
  {
    var a', b' := TrimSlice(s, k);
    var t := Trim(s, k);
    if a < b {
      assert a' <= a;
      assert b' >= b;
      assert |t| > 0;
    }
  }

  /** A leading character of the set lengthens the leading run by one. */
  lemma LeadingRunCons(c: char, s: string, k: CharSet)
    requires k.Contains(c)
    ensures LeadingRun([c] + s, k) == LeadingRun(s, k) + 1
  {
    assert ([c] + s)[1..] == s;
  }

  lemma SliceOfSuffix<T>(s: seq<T>, a: nat, e: nat)
    requires a <= e <= |s|
    ensures s[a..e] == s[a..][..e - a]
  {
  }

  /** The trim is the part after the leading run, less its trailing run. */
  lemma TrimAfterLeadingRun(s: string, k: CharSet)
    ensures var u := s[LeadingRun(s, k)..];
      Trim(s, k) == u[..|u| - TrailingRun(u, k)]
  {
    var a := LeadingRun(s, k);
    var b := TrailingRun(s[a..], k);
    assert Trim(s, k) == s[a..|s| - b];
    SliceOfSuffix(s, a, |s| - b);
  }

  /** When `t` is `s` behind one more leading character of the run, both trim alike. */
  lemma TrimBehindLeading(t: string, s: string, k: CharSet)
    requires |t| == |s| + 1 && t[1..] == s
    requires LeadingRun(t, k) == LeadingRun(s, k) + 1
    ensures Trim(t, k) == Trim(s, k)
  {
    TrimAfterLeadingRun(t, k);
    TrimAfterLeadingRun(s, k);
    assert t[LeadingRun(t, k)..] == s[LeadingRun(s, k)..];
  }

  /** A leading character of the set does not change the trim. */
  lemma TrimDropsLeading(c: char, s: string, k: CharSet)
    requires k.Contains(c)
    ensures Trim([c] + s, k) == Trim(s, k)
  {
    LeadingRunCons(c, s, k);
    assert ([c] + s)[1..] == s;
    TrimBehindLeading([c] + s, s, k);
  }

  /** A trailing character of the set does not change the trim. */
  lemma TrimDropsTrailing(s: string, c: char, k: CharSet)
    requires k.Contains(c)
    ensures Trim(s + [c], k) == Trim(s, k)
  {
    var a, b := TrimSlice(s, k);
    var t := s + [c];
    assert forall i :: 0 <= i < |s| ==> t[i] == s[i];
    assert t[a..b] == s[a..b];
    TrimUnique(t, k, a, b);
  }

  /** Join of some lines followed by one more. */
  lemma {:induction false} JoinSnoc(lines: seq<string>, last: string)
    requires |lines| >= 1
    ensures Join(lines + [last]) == Join(lines) + "\n" + last
    decreases |lines|
  {
    if |lines| == 1 {
      JoinCons(lines[0], [last]);
      assert lines + [last] == [lines[0]] + [last];
    } else {
      assert lines + [last] == [lines[0]] + (lines[1..] + [last]);
      JoinCons(lines[0], lines[1..] + [last]);
      JoinSnoc(lines[1..], last);
      JoinCons(lines[0], lines[1..]);
      assert [lines[0]] + lines[1..] == lines;
    }
  }

  /** The joined text starts with the first line and ends with the last. */
  lemma {:induction false} JoinEnds(lines: seq<string>)
    requires |lines| >= 1
    ensures lines[0] <= Join(lines)
    ensures |lines[|lines| - 1]| <= |Join(lines)|
    ensures Join(lines)[|Join(lines)| - |lines[|lines| - 1]|..] == lines[|lines| - 1]
    decreases |lines|
  {
    if |lines| > 1 {
      var init := lines[..|lines| - 1];
      var last := lines[|lines| - 1];
      assert init + [last] == lines;
      JoinSnoc(init, last);
      JoinEnds(init);
      JoinCons(lines[0], lines[1..]);
      assert [lines[0]] + lines[1..] == lines;
    }
  }

  /** `s` with every whitespace and newline character deleted: the visible text. */
  function Strip(s: string): string
    decreases |s|
  {
    if |s| == 0 then ""
    else (if WhitespacesAndNewlines.Contains(s[0]) then "" else [s[0]]) + Strip(s[1..])
  }

  lemma {:induction false} StripConcat(a: string, b: string)
    ensures Strip(a + b) == Strip(a) + Strip(b)
    decreases |a|
  {
    if |a| == 0 {
      assert a + b == b;
    } else {
      assert (a + b)[1..] == a[1..] + b;
      StripConcat(a[1..], b);
    }
  }

  lemma {:induction false} StripBlank(s: string, k: CharSet)
    requires forall i :: 0 <= i < |s| ==> k.Contains(s[i])
    ensures Strip(s) == ""
    decreases |s|
  {
    if |s| > 0 {
      StripBlank(s[1..], k);
    }
  }

  /** Trimming deletes no visible character. */
  lemma StripTrim(s: string, k: CharSet)
    ensures Strip(Trim(s, k)) == Strip(s)
  {
    var a, b := TrimSlice(s, k);
    assert s == s[..a] + s[a..b] + s[b..];
    StripConcat(s[..a] + s[a..b], s[b..]);
    StripConcat(s[..a], s[a..b]);
    StripBlank(s[..a], k);
    assert forall i :: 0 <= i < |s[b..]| ==> s[b..][i] == s[b + i];
    StripBlank(s[b..], k);
  }

  /** Rewriting line breaks to line feeds deletes no visible character. */
  lemma {:induction false} StripLineFeeds(s: string)
    ensures Strip(LineFeeds(s)) == Strip(s)
    decreases |s|
  {
    if |s| > 0 {
      assert LineFeeds(s)[1..] == LineFeeds(s[1..]);
      StripLineFeeds(s[1..]);
    }
  }
}

=== FILE: uploadname.dfy ===
/**
 * The base file name an attachment is uploaded under: a trailing
 * extension is cut at the last ".", unless that dot is the first character.
 */
module UploadName {
  import opened Wrappers

  /** `s.lastIndex(of: c)`. */
  function LastIndexOf(s: string, c: char): (r: Option<nat>)
    ensures r.None? <==> c !in s
    ensures r.Some? ==> r.value < |s| && s[r.value] == c
    ensures r.Some? ==> forall j :: r.value < j < |s| ==> s[j] != c
  {
    if |s| == 0 then None
    else if s[|s| - 1] == c then Some(|s| - 1)
    else
      assert forall x :: x in s[..|s| - 1] ==> x in s;
      assert s == s[..|s| - 1] + [s[|s| - 1]];
      LastIndexOf(s[..|s| - 1], c)
  }

  /** There is a "." somewhere after the first character. */
  predicate HasExtensionDot(name: string) {
    exists j :: 0 < j < |name| && name[j] == '.'
  }

  function BaseFileName(name: string): (r: string)
    ensures r <= name
    ensures |r| > 0 <==> |name| > 0
    ensures r == name <==> !HasExtensionDot(name)
    ensures r != name ==> name == r + "." + name[|r| + 1..] && '.' !in name[|r| + 1..]
  {
    match LastIndexOf(name, '.')
    case Some(dot) =>
      if dot != 0 then
        var r := name[..dot];
        assert name == r + "." + name[dot + 1..];
        var ext := name[dot + 1..];
        assert forall j :: 0 <= j < |ext| ==> ext[j] == name[dot + 1 + j];
        r
      else
        name
    case None => name
  }
}

=== FILE: uploads.dfy ===
/**
 * The sequential upload loop at the start of `done(_:)`: every attached
 * image is uploaded in order under its base name, with a 1-based progress
 * status; an upload error is displayed and the loop carries on.
 */
module Uploads {
  import opened Decimal
  import opened Attachments
  import opened UploadName

  /**
   * What the remote upload did: success, or a thrown error that is shown
   * only when it is an `SMError` (`displayable`).
   */
  datatype UploadResult = Uploaded | UploadFailed(displayable: bool)

  /** One iteration of the loop as the user and the server see it. */
  datatype UploadStep = UploadStep(
    status: string, position: nat, total: nat, image: Image, baseName: string, errorShown: bool)

  const ProgressPrefix: string := "正在上传: "

  /** The progress status shown before an upload: "<position> / <total>" after the prefix. */
  function ProgressStatus(position: nat, total: nat): string {
    ProgressPrefix + Show(position) + " / " + Show(total)
  }

  /** The status starts with the prefix, and both counts read back from the rest. */
  lemma ProgressStatusReadsBack(position: nat, total: nat)
    ensures var r := ProgressStatus(position, total);
      && |ProgressPrefix| < |r| && r[..|ProgressPrefix|] == ProgressPrefix
      && ReadProgress(r[|ProgressPrefix|..]) == (position, total)
  {
    var r := ProgressStatus(position, total);
    assert r == ProgressPrefix + (Show(position) + " / " + Show(total));
    assert r[|ProgressPrefix|..] == Show(position) + " / " + Show(total);
    ReadsBack(position, total);
  }

  /** Reads "<position> / <total>" back into its two numbers. */
  function ReadProgress(counts: string): (nat, nat) {
    var d := DigitRun(counts);
    if d + 3 <= |counts| then (Parse(counts[..d]), Parse(counts[d + 3..])) else (0, 0)
  }

  /** The text before " / " is read as the position and the rest as the total. */
  lemma ReadProgressSplit(a: string, b: string)
    requires forall i :: 0 <= i < |a| ==> IsDigit(a[i])
    ensures ReadProgress(a + " / " + b) == (Parse(a), Parse(b))
  {
    var counts := a + " / " + b;
    assert counts == a + (" / " + b);
    DigitRunStops(a, " / " + b);
    assert counts[..|a|] == a;
    assert counts[|a| + 3..] == b;
  }

  lemma ReadsBack(position: nat, total: nat)
    ensures ReadProgress(Show(position) + " / " + Show(total)) == (position, total)
  {
    ReadProgressSplit(Show(position), Show(total));
    ParseShow(position);
    ParseShow(total);
  }

  /** Different counts give different status texts. */
  lemma ProgressStatusInjective(p1: nat, t1: nat, p2: nat, t2: nat)
    ensures ProgressStatus(p1, t1) == ProgressStatus(p2, t2) ==> p1 == p2 && t1 == t2
  {
    var s1 := ProgressStatus(p1, t1);
    var s2 := ProgressStatus(p2, t2);
    ProgressStatusReadsBack(p1, t1);
    ProgressStatusReadsBack(p2, t2);
  }

  function ErrorShown(result: UploadResult): bool {
    result.UploadFailed? && result.displayable
  }

  /**
   * The loop's steps, one per attachment and in order: step i uploads
   * image i under the base name of name i, after the status "i+1 / count",
   * and shows an error only for a displayable failure, whatever the other
   * uploads returned.
   */
  function UploadLog(images: seq<Image>, names: seq<string>, results: seq<UploadResult>): (log: seq<UploadStep>)
    requires |names| == |images| && |results| == |images|
    ensures |log| == |images|
    ensures forall i :: 0 <= i < |log| ==>
      && log[i].image == images[i]
      && log[i].baseName == BaseFileName(names[i])
      && log[i].position == i + 1 && log[i].total == |images|
      && log[i].status == ProgressStatus(i + 1, |images|)
      && (log[i].errorShown <==> results[i].UploadFailed? && results[i].displayable)
  {
    seq(|images|, i requires 0 <= i < |images| => StepAt(images, names, results, i))
  }

  /** The step for the attachment at `index`. */
  function StepAt(images: seq<Image>, names: seq<string>, results: seq<UploadResult>, index: nat): UploadStep
    requires |names| == |images| && |results| == |images| && index < |images|
  {
    var position := index + 1;
    UploadStep(ProgressStatus(position, |images|), position, |images|, images[index],
               BaseFileName(names[index]), ErrorShown(results[index]))
  }

  function UploadedImages(log: seq<UploadStep>): seq<Image> {
    seq(|log|, i requires 0 <= i < |log| => log[i].image)
  }

  /** Every attachment is uploaded, once and in order, whatever the individual results. */
  lemma UploadsEveryImage(images: seq<Image>, names: seq<string>, results: seq<UploadResult>)
    requires |names| == |images| && |results| == |images|
    ensures UploadedImages(UploadLog(images, names, results)) == images
  {
  }

  /** A log made of the right step at every index is the upload log. */
  lemma LogOfSteps(log: seq<UploadStep>, images: seq<Image>, names: seq<string>, results: seq<UploadResult>)
    requires |names| == |images| && |results| == |images| && |log| == |images|
    requires forall i :: 0 <= i < |log| ==> log[i] == StepAt(images, names, results, i)
    ensures log == UploadLog(images, names, results)
  {
  }

  /**
   * One pass of the loop body: the progress status, the base name, the
   * upload, and the `catch` that shows only an `SMError`.
   */
  method UploadOne(images: seq<Image>, names: seq<string>, results: seq<UploadResult>, index: nat)
    returns (step: UploadStep)
    requires |names| == |images| && |results| == |images| && index < |images|
    ensures step.image == images[index] && step.baseName == BaseFileName(names[index])
    ensures step.position == index + 1 && step.total == |images|
    ensures step.status == ProgressStatus(index + 1, |images|)
    ensures step.errorShown <==> results[index].UploadFailed? && results[index].displayable
    ensures step == StepAt(images, names, results, index)
  {
    var status := ProgressStatus(index + 1, |images|);
    var image := images[index];
    var fileName := names[index];
    var baseFileName := BaseFileName(fileName);
    var shown := false;
    match results[index] {
      case Uploaded =>
      case UploadFailed(displayable) =>
        shown := displayable;
    }
    step := UploadStep(status, index + 1, |images|, image, baseFileName, shown);
  }

  /**
   * The loop of `done(_:)` over `attachedImages.enumerated()`; `results`
   * stands for what each remote upload returns.
   */
  method RunUploads(images: seq<Image>, names: seq<string>, results: seq<UploadResult>)
    returns (log: seq<UploadStep>)
    requires |names| == |images| && |results| == |images|
    ensures log == UploadLog(images, names, results)
  {
    log := [];
    var index := 0;
    while index < |images|
      invariant 0 <= index <= |images|
      invariant |log| == index
      invariant forall i :: 0 <= i < index ==> log[i] == StepAt(images, names, results, i)
    {
      var step := UploadOne(images, names, results, index);
      log := log + [step];
      index := index + 1;
    }
    LogOfSteps(log, images, names, results);
  }
}

=== FILE: wrappers.dfy ===
/** The optional value the controller's Swift code writes as `T?`. */
module Wrappers {

  datatype Option<+T> = None | Some(value: T)
}
